=== FILE: README.md ===
# SVB collapse stress test, modelled in Dafny

This project models the stress-test engine of the SVB-collapse simulator
(`app.py`). The engine has two halves:

- **Valuation.** Each position of a fixed-income catalog is priced as the sum
  of its discounted cash flows (`get_bond_price`). The position is priced
  again after a parallel rate shock of `rate_shock_bps / 10000`. The loss
  columns follow from the two prices. The aggregate HTM loss fraction is
  `|Σ Loss / Σ Initial_Price|`.
- **Liquidity waterfall.** A deposit run of `withdrawal_pct`% of deposits is
  met in strict order: cash at par, then AFS securities at a 10% haircut,
  then HTM securities sold at the aggregate loss fraction. Equity is reduced
  by every realized loss.

All arithmetic is exact `real`. The files are:

- `results.dfy`: the outcome types. `Result` covers the points where the
  script raises or yields a non-finite figure. `Ratio` is a finite number, or the inf/NaN that a pandas or
  numpy division by zero yields.
- `pricing.dfy`: bond pricing. The price is proved equal to its closed form
  (coupon annuity plus discounted face) and to par plus the coupon–yield
  spread times the annuity. From these follow the par price, positivity and
  the strictly falling price/yield relation.
- `portfolio.dfy`: the reference catalog, the shock columns and the
  aggregate loss fraction. Under a non-negative shock on a sound, non-empty
  catalog the fraction lies in [0, 1). Of two positions at par with the same coupon, the
  longer one loses the larger percentage.
- `waterfall.dfy`: the Cash → AFS → HTM pass, an imperative method over
  local mutable variables. It is proved against a complete tier-by-tier
  description, `Drawn`, and a lemma shows that `Drawn` fixes every figure.
- `scenario.dfy`: valuation and waterfall composed end to end, and the
  reference scenarios.

The engine validates none of its inputs, and the model follows the code
rather than the checks a stricter engine would make:

- `get_bond_price` rejects nothing. A maturity below 1 fails on reading the
  last cash flow (`NoCashFlows`). A yield of exactly -1 fails on a division
  by zero (`ZeroDiscountFactor`). A negative face and a yield below -1 are
  priced as written; no `InvalidPosition` error exists in the code.
- The HTM tier does not reject a loss fraction ≥ 1. Only a fraction of
  exactly 1, or a non-finite one (inf or NaN when the initial prices of a
  non-empty catalog sum to 0), makes the realized HTM loss non-finite: the
  face sold is inf or NaN, or −0.0 at an infinite fraction, and the loss it
  realizes is then inf or NaN. The model reports that as
  `NonFiniteHtmLoss`. A fraction above 1 is computed as written.
- Scenario parameters are not range-checked by the engine, so the model
  takes any integer shock and withdrawal percentage.

## Model

| member | source | states |
|---|---|---|
| Pricing.DiscountedSum | app.py:69 | the `sum` over the discounted flows, added front to back; it carries no contract of its own: PriceClosedForm and DiscountedLevel state its value |
| Pricing.CashFlows | app.py:66-68 | the schedule has `maturity` flows: the coupon `face*coupon` in every period, with `face` added to the last |
| Pricing.BondPrice | app.py:65-69 | the price exists iff maturity ≥ 1 and 1 + yield ≠ 0; otherwise it fails with NoCashFlows or ZeroDiscountFactor, in that order; when it exists it equals the closed form |
| Pricing.DiscountedLevel | app.py:67-69 | a level schedule of `n` flows `c`, discounted period by period, is worth `c` times the annuity Σ 1/(1+y)^t |
| Pricing.PriceClosedForm | app.py:65-69 | the discounted cash-flow sum equals the coupon annuity plus face / (1+y)^maturity |
| Pricing.AnnuityIdentity | app.py:69 | telescoping: y · Σ_{t=1..n} 1/(1+y)^t = 1 − 1/(1+y)^n |
| Pricing.PriceSpreadForm | app.py:65-69 | the price is face + face·(coupon − y)·annuity |
| Pricing.ParPrice | app.py:65-69 | a bond priced at its own coupon rate is worth exactly its face |
| Pricing.PricePositive | app.py:65-69 | positive face, non-negative coupon, 1 + y > 0: the price exists and is positive |
| Pricing.PowMonotone | app.py:69 | a larger positive discount base gives a larger power, strictly from n = 1 on |
| Pricing.AnnuityAntitone | app.py:69 | a larger discount base gives a smaller annuity, strictly from n = 1 on |
| Pricing.AnnuityIncreasing | app.py:69 | at a positive base, a longer annuity is worth strictly more |
| Pricing.PriceDecreasing | app.py:69 | for positive face and non-negative coupon the price strictly falls as the yield rises |
| Portfolio.PriceColumn | app.py:81 | a column succeeds iff every row prices; then row i is row i's price; a failing column carries the error of the first row that cannot be priced |
| Portfolio.ApplyShock | app.py:81-85 | the shock succeeds iff every row prices at both rates, and then the table holds per row the two prices, the loss and the loss percentage; on failure the base-price column's error wins, otherwise the shocked column's |
| Portfolio.LossPct | app.py:85 | finite iff the initial price is non-zero, and then the percentage times the initial price is 100 times the loss |
| Portfolio.AggregateLossFraction | app.py:113 | finite iff the total initial price is non-zero, and then a non-negative fraction whose product with abs(total initial price) is abs(total loss) |
| Portfolio.ShockLoss | app.py:81-84 | for a sound position under a shock ≥ 0, both prices exist and are positive, the loss is ≤ 0, and < 0 when the shock is positive |
| Portfolio.ShockedRows | app.py:81-84 | every row of a sound catalog keeps those bounds in the shock table |
| Portfolio.ShockedRow | app.py:84 | one row of a table describing the shock keeps the bounds of ShockLoss |
| Portfolio.LossSumBounds | app.py:113 | row bounds summed: total initial price > 0 and −total < Σ loss ≤ 0; Σ loss < 0 when every row loses |
| Portfolio.FractionBelowOne | app.py:113 | a total loss in (−total, 0] over a positive total gives abs(loss / total) in [0, 1), and 0 exactly when the loss is 0 |
| Portfolio.LossFractionBounds | app.py:113 | for a non-empty sound catalog and shock ≥ 0, the aggregate loss fraction is finite and in [0, 1), 0 without a shock and positive with one |
| Portfolio.ReferenceCatalogAtPar | app.py:72-77 | every catalog position is sound and its initial price is exactly its face |
| Portfolio.ParShockLossPct | app.py:85 | a par position under a positive shock s has loss percentage −100·s·annuity at the shocked yield |
| Portfolio.ParAnnuityOrder | app.py:85 | of two same-coupon par positions, the longer has the larger positive annuity at the shocked yield |
| Portfolio.ParLossOrder | app.py:85 | of two same-coupon par positions, the longer has the more negative closed-form loss, and both are negative |
| Portfolio.LossPctColumn | app.py:85 | row i of the loss-percentage column is the loss percentage of position i, as ShockLossPct and DurationOrdering state it |
| Portfolio.DurationOrdering | app.py:160 | of two same-coupon positions at par under a positive shock, the longer loses strictly the larger percentage |
| Waterfall.RunWaterfall | app.py:93-134 | fails iff the HTM tier is needed and the fraction is 1 or non-finite; otherwise the pass is exactly Drawn; cash + net AFS + net HTM meet the demand; the HTM tier runs iff the demand exceeds cash plus 0.9·AFS; the AFS loss is ≤ 0.1·AFS; the equity delta (final minus initial equity) is −(AFS loss + HTM loss); a run that cash covers costs nothing; with a fraction in [0, 1) equity only falls |
| Waterfall.WithdrawalAmount | app.py:93 | the demand times 100 is deposits times the percentage, and it lies within [0, deposits] for a percentage in [0, 100] |
| Waterfall.CashCovered | app.py:98-119 | when cash covers the demand, neither later tier runs, no loss is realized and equity is unchanged |
| Waterfall.HtmSaleSigns | app.py:116-119 | netting a positive demand at a fraction in [0, 1) sells a positive face and realizes a non-negative loss |
| Waterfall.DrawnUnique | app.py:93-119 | two passes matching the tier description are equal: the description fixes every figure |
| Waterfall.ReferenceRun | app.py:88-119 | with the reference balance sheet and a 25% run: demand 45,000, cash 15,000, whole AFS pool at a 2,500 loss, 7,500 left for HTM, final equity 12,500 − HTM loss |
| Scenario.RunScenario | app.py:81-119 | a valuation error stops the run; otherwise it fails iff the waterfall does; the result holds the shock table, its aggregate fraction and a pass matching Drawn; for a sound non-empty catalog under a shock ≥ 0 it completes with a fraction in [0, 1) and never raises equity |
| Scenario.ScenarioA | app.py:38-57 | the defaults (+300 bps, 25% run) on the reference data: the table is the reference catalog shocked by +300 bps, the HTM fraction is that table's aggregate loss fraction and lies in (0, 1), and the waterfall figures are those of ReferenceRun at that fraction |
| Scenario.ScenarioB | app.py:81-119 | no shock and no run: the table is the reference catalog at 0 bps, every row's loss is zero, the loss fraction is zero, no loss is realized and equity is unchanged |
| Scenario.ScenarioC | app.py:98-119 | a run of at most 8% of deposits, which cash covers, realizes no loss at any shock ≥ 0 |

## Left out

- IEEE-754 rounding: the model computes in exact rationals. Results that
  hold only up to a tolerance in floating point, such as the exact HTM
  figure of the reference scenario, are stated symbolically in terms of the
  loss fraction rather than as decimals.
- The Streamlit page, sidebar sliders, tabs, metrics, solvency alerts
  (app.py:139-144), the matplotlib charts and the yield-curve data: these are
  presentation only. The slider values are plain parameters, and their ranges
  (0-500 bps in steps of 25, 0-50%) are not enforced.
- The pandas DataFrame machinery: columns are sequences, and sums are
  recursive. `df.apply` is modelled column by column, so the first row that
  cannot be priced decides the error.
- The asset names and `Loss_Pct` formatting are carried but not displayed.
- Portfolio.DurationOrdering: the insight text at app.py:160 claims the
  30-year row loses the most. The model proves the duration ordering only for
  two positions that share a coupon and are both at par (base yield equal to
  the coupon). Without par the ordering does not hold in general: at a 1%
  coupon, a 20% yield and +300 bps, a 20-period bond loses about 21.5% and a
  30-period bond about 15.9%. The model does not compute the four reference
  rows' loss percentages at +300 bps.
- Portfolio.ApplyShock, Portfolio.PriceColumn: the empty catalog. On a frame with no rows, `df.apply` at app.py:81
  returns a frame instead of a column, and the assignment raises before the
  loss fraction is reached. The model values the empty catalog instead: the
  shock succeeds and the loss fraction is `NonFinite`.
- Waterfall.RunWaterfall: a loss fraction of exactly 1, or a non-finite one,
  makes numpy produce inf/NaN and carry on. The model stops with
  `NonFiniteHtmLoss` instead of propagating the non-finite equity.

=== FILE: portfolio.dfy ===
/** The position catalog, the rate shock applied to every position, and the
    aggregate loss fraction that the HTM tier of the waterfall sells at. */
module Portfolio {
  import opened Results
  import opened Pricing

  /** One catalog row: face, coupon rate, maturity in periods, base yield, name. */
  datatype Position = Position(face: real, coupon: real, maturity: int, baseYield: real, name: string)

  /** The hypothetical portfolio; every entry starts at its own coupon rate. */
  const ReferenceCatalog: seq<Position> := [
    Position(5000.0, 0.0175, 10, 0.0175, "10Y Treasury (Safe?)"),
    Position(3000.0, 0.0200, 30, 0.0200, "30Y Agency MBS (Long Duration)"),
    Position(2000.0, 0.0150, 5, 0.0150, "5Y Note (Liquid)"),
    Position(5000.0, 0.0400, 10, 0.0400, "10Y Corp Bond (Higher Yield)")
  ]

  /** A position whose prices are positive and fall as its yield rises. */
  predicate Sound(p: Position) {
    p.face > 0.0 && p.coupon >= 0.0 && p.maturity >= 1 && 1.0 + p.baseYield > 0.0
  }

  predicate AllSound(ps: seq<Position>) {
    forall i :: 0 <= i < |ps| ==> Sound(ps[i])
  }

  /** A shock in basis points as a yield increment. */
  function ShockShift(rateShockBps: int): real {
    rateShockBps as real / 10000.0
  }

  function PriceAt(p: Position, yieldRate: real): Result<real> {
    BondPrice(p.face, p.coupon, p.maturity, yieldRate)
  }

  /** The column of base rates. */
  function BaseYields(ps: seq<Position>): (ys: seq<real>)
    ensures |ys| == |ps| && forall i :: 0 <= i < |ps| ==> ys[i] == ps[i].baseYield
  {
    seq(|ps|, i requires 0 <= i < |ps| => ps[i].baseYield)
  }

  /** The column of shocked rates: each base yield plus the shock. */
  function NewYields(ps: seq<Position>, rateShockBps: int): (ys: seq<real>)
    ensures |ys| == |ps| && forall i :: 0 <= i < |ps| ==> ys[i] == ps[i].baseYield + ShockShift(rateShockBps)
  {
    seq(|ps|, i requires 0 <= i < |ps| => ps[i].baseYield + ShockShift(rateShockBps))
  }

  /** Prices row i of `ps` at `rates[i]`, row by row; the first row that
      cannot be priced stops the column with its error. */
  function PriceColumn(ps: seq<Position>, rates: seq<real>): (r: Result<seq<real>>)
    requires |rates| == |ps|
    ensures r.Ok? <==> forall i :: 0 <= i < |ps| ==> PriceAt(ps[i], rates[i]).Ok?
    ensures r.Ok? ==> |r.value| == |ps|
    ensures r.Ok? ==> forall i :: 0 <= i < |ps| ==> PriceAt(ps[i], rates[i]) == Ok(r.value[i])
    // the error is that of the first row that cannot be priced
    ensures r.Err? ==> exists i :: 0 <= i < |ps| && (forall j :: 0 <= j < i ==> PriceAt(ps[j], rates[j]).Ok?)
                                   && PriceAt(ps[i], rates[i]) == Err(r.error)
  {
    if ps == [] then Ok([])
    else
      var first :- PriceAt(ps[0], rates[0]);
      var rest :- PriceColumn(ps[1..], rates[1..]);
      Ok([first] + rest)
  }

  /** Loss as a percentage of the initial price; a zero initial price gives the
      non-finite ratio of a division by zero. */
  function LossPct(initialPrice: real, loss: real): (r: Ratio)
    ensures r.Finite? <==> initialPrice != 0.0
    ensures r.Finite? ==> r.value * initialPrice == loss * 100.0
  {
    if initialPrice == 0.0 then NonFinite else Finite(loss / initialPrice * 100.0)
  }

  /** The shock columns, one entry per position. */
  datatype ShockTable = ShockTable(
    initialPrice: seq<real>,
    newYield: seq<real>,
    shockedPrice: seq<real>,
    loss: seq<real>,
    lossPct: seq<Ratio>)

  /** `t` holds, row by row, the prices of `ps` before and after the shock and
      the loss between them. */
  ghost predicate Describes(t: ShockTable, ps: seq<Position>, rateShockBps: int) {
    && |t.initialPrice| == |t.newYield| == |t.shockedPrice| == |t.loss| == |t.lossPct| == |ps|
    && forall i :: 0 <= i < |ps| ==>
         && PriceAt(ps[i], ps[i].baseYield) == Ok(t.initialPrice[i])
         && t.newYield[i] == ps[i].baseYield + ShockShift(rateShockBps)
         && PriceAt(ps[i], t.newYield[i]) == Ok(t.shockedPrice[i])
         && t.loss[i] == t.shockedPrice[i] - t.initialPrice[i]
         && t.lossPct[i] == LossPct(t.initialPrice[i], t.loss[i])
  }

  /** Prices the whole catalog at its base rates, then at the shocked rates,
      and derives the loss columns. */
  function ApplyShock(ps: seq<Position>, rateShockBps: int): (r: Result<ShockTable>)
    ensures r.Ok? <==> forall i :: 0 <= i < |ps| ==>
                         PriceAt(ps[i], ps[i].baseYield).Ok?
                         && PriceAt(ps[i], ps[i].baseYield + ShockShift(rateShockBps)).Ok?
    ensures r.Ok? ==> Describes(r.value, ps, rateShockBps)
    // the base-price column is valued first: its error wins over the shocked column's
    ensures PriceColumn(ps, BaseYields(ps)).Err? ==> r == Err(PriceColumn(ps, BaseYields(ps)).error)
    ensures PriceColumn(ps, BaseYields(ps)).Ok? && PriceColumn(ps, NewYields(ps, rateShockBps)).Err? ==>
              r == Err(PriceColumn(ps, NewYields(ps, rateShockBps)).error)
  {
    var initial :- PriceColumn(ps, BaseYields(ps));
    var newYields := NewYields(ps, rateShockBps);
    var shocked :- PriceColumn(ps, newYields);
    var loss := seq(|ps|, i requires 0 <= i < |ps| => shocked[i] - initial[i]);
    Ok(ShockTable(initial, newYields, shocked, loss,
                  seq(|ps|, i requires 0 <= i < |ps| => LossPct(initial[i], loss[i]))))
  }

  /** Sum of a column. */
  function Sum(xs: seq<real>): real {
    if xs == [] then 0.0 else xs[0] + Sum(xs[1..])
  }

  function Abs(x: real): real {
    if x < 0.0 then -x else x
  }

  /** The HTM loss fraction: the magnitude of the total loss over the total
      initial price; non-finite when the total initial price is zero. */
  function AggregateLossFraction(t: ShockTable): (r: Ratio)
    ensures r.Finite? <==> Sum(t.initialPrice) != 0.0
    ensures r.Finite? ==> r.value >= 0.0 && r.value * Abs(Sum(t.initialPrice)) == Abs(Sum(t.loss))
  {
    var total := Sum(t.initialPrice);
    if total == 0.0 then NonFinite else Finite(Abs(Sum(t.loss) / total))
  }

  /** A sound position keeps a positive price under a non-negative shock, and
      loses value: no gain for a zero shock, a strict loss for a positive one. */
  lemma ShockLoss(p: Position, rateShockBps: int)
    requires Sound(p) && rateShockBps >= 0
    ensures PriceAt(p, p.baseYield).Ok? && PriceAt(p, p.baseYield + ShockShift(rateShockBps)).Ok?
    ensures PriceAt(p, p.baseYield).value > 0.0
    ensures 0.0 < PriceAt(p, p.baseYield + ShockShift(rateShockBps)).value <= PriceAt(p, p.baseYield).value
    ensures rateShockBps > 0 ==>
              PriceAt(p, p.baseYield + ShockShift(rateShockBps)).value < PriceAt(p, p.baseYield).value
  {
    var shocked := p.baseYield + ShockShift(rateShockBps);
    PricePositive(p.face, p.coupon, p.maturity, p.baseYield);
    PricePositive(p.face, p.coupon, p.maturity, shocked);
    if rateShockBps > 0 {
      PriceDecreasing(p.face, p.coupon, p.maturity, p.baseYield, shocked);
    }
  }

  /** Row bounds summed: positive initial prices and losses in (-initial, 0]
      give a positive total and a total loss in (-total, 0]. */
  lemma {:induction false} LossSumBounds(initial: seq<real>, loss: seq<real>)
    requires |initial| == |loss|
    requires forall i :: 0 <= i < |initial| ==> initial[i] > 0.0 && -initial[i] < loss[i] <= 0.0
    ensures Sum(loss) <= 0.0 && -Sum(initial) <= Sum(loss)
    ensures |initial| > 0 ==> Sum(initial) > 0.0 && -Sum(initial) < Sum(loss)
    ensures |initial| > 0 && (forall i :: 0 <= i < |loss| ==> loss[i] < 0.0) ==> Sum(loss) < 0.0
  {
    if |initial| > 0 {
      LossSumBounds(initial[1..], loss[1..]);
    }
  }

  /** A total loss in (-total, 0] over a positive total is a fraction in [0, 1). */
  lemma FractionBelowOne(loss: real, total: real)
    requires total > 0.0 && -total < loss <= 0.0
    ensures 0.0 <= Abs(loss / total) < 1.0
    ensures loss < 0.0 ==> Abs(loss / total) > 0.0
    ensures loss == 0.0 ==> Abs(loss / total) == 0.0
  {
    var f := loss / total;
    assert f * total == loss;
    // f * total == loss rules out a positive quotient and one at or below -1.
    if f > 0.0 {
      assert false;
    }
    if f <= -1.0 {
      assert false;
    }
  }

  /** Under a non-negative shock every row of a sound catalog prices, keeps a
      positive initial price and a loss in (-initial, 0]; zero without a shock,
      negative with one. */
  lemma ShockedRows(ps: seq<Position>, rateShockBps: int)
    requires AllSound(ps) && rateShockBps >= 0
    ensures ApplyShock(ps, rateShockBps).Ok?
    ensures var t := ApplyShock(ps, rateShockBps).value;
            forall i :: 0 <= i < |ps| ==>
              && t.initialPrice[i] > 0.0 && -t.initialPrice[i] < t.loss[i] <= 0.0
              && (rateShockBps > 0 ==> t.loss[i] < 0.0)
              && (rateShockBps == 0 ==> t.loss[i] == 0.0)
  {
    forall i | 0 <= i < |ps|
      ensures PriceAt(ps[i], ps[i].baseYield).Ok?
      ensures PriceAt(ps[i], ps[i].baseYield + ShockShift(rateShockBps)).Ok?
    {
      ShockLoss(ps[i], rateShockBps);
    }
    forall i | 0 <= i < |ps|
      ensures var t := ApplyShock(ps, rateShockBps).value;
              && t.initialPrice[i] > 0.0 && -t.initialPrice[i] < t.loss[i] <= 0.0
              && (rateShockBps > 0 ==> t.loss[i] < 0.0)
              && (rateShockBps == 0 ==> t.loss[i] == 0.0)
    {
      ShockedRow(ps, rateShockBps, ApplyShock(ps, rateShockBps).value, i);
    }
  }

  /** Row `i` of a table describing a shock of a sound catalog keeps the bounds of ShockLoss. */
  lemma ShockedRow(ps: seq<Position>, rateShockBps: int, t: ShockTable, i: int)
    requires AllSound(ps) && rateShockBps >= 0 && 0 <= i < |ps|
    requires Describes(t, ps, rateShockBps)
    ensures && t.initialPrice[i] > 0.0 && -t.initialPrice[i] < t.loss[i] <= 0.0
            && (rateShockBps > 0 ==> t.loss[i] < 0.0)
            && (rateShockBps == 0 ==> t.loss[i] == 0.0)
  {
    ShockLoss(ps[i], rateShockBps);
  }

  /** For a non-empty catalog of sound positions and a non-negative shock, the
      shock succeeds and the aggregate loss fraction is finite and in [0, 1):
      the HTM tier can always be priced. It is 0 without a shock and positive
      with one. */
  lemma LossFractionBounds(ps: seq<Position>, rateShockBps: int)
    requires AllSound(ps) && |ps| > 0 && rateShockBps >= 0
    ensures ApplyShock(ps, rateShockBps).Ok?
    ensures AggregateLossFraction(ApplyShock(ps, rateShockBps).value).Finite?
    ensures 0.0 <= AggregateLossFraction(ApplyShock(ps, rateShockBps).value).value < 1.0
    ensures rateShockBps == 0 ==> AggregateLossFraction(ApplyShock(ps, rateShockBps).value).value == 0.0
    ensures rateShockBps > 0 ==> AggregateLossFraction(ApplyShock(ps, rateShockBps).value).value > 0.0
  {
    ShockedRows(ps, rateShockBps);
    var t := ApplyShock(ps, rateShockBps).value;
    LossSumBounds(t.initialPrice, t.loss);
    FractionBelowOne(Sum(t.loss), Sum(t.initialPrice));
    if rateShockBps == 0 {
      ZeroSum(t.loss);
    } else {
      assert forall i :: 0 <= i < |t.loss| ==> t.loss[i] < 0.0;
      assert Sum(t.loss) < 0.0;
    }
  }

  /** A column of zeros sums to zero. */
  lemma {:induction false} ZeroSum(xs: seq<real>)
    requires forall i :: 0 <= i < |xs| ==> xs[i] == 0.0
    ensures Sum(xs) == 0.0
  {
    if xs != [] {
      ZeroSum(xs[1..]);
    }
  }

  /** Every reference position is sound and priced at par: its initial price is its face. */
  lemma ReferenceCatalogAtPar()
    ensures AllSound(ReferenceCatalog)
    ensures forall i :: 0 <= i < |ReferenceCatalog| ==>
              PriceAt(ReferenceCatalog[i], ReferenceCatalog[i].baseYield) == Ok(ReferenceCatalog[i].face)
  {
    forall i | 0 <= i < |ReferenceCatalog|
      ensures PriceAt(ReferenceCatalog[i], ReferenceCatalog[i].baseYield) == Ok(ReferenceCatalog[i].face)
    {
      var p := ReferenceCatalog[i];
      ParPrice(p.face, p.coupon, p.maturity, p.baseYield);
    }
  }

  /** The loss percentage of row `p` under the shock, as the shock columns hold it. */
  function ShockLossPct(p: Position, rateShockBps: int): Ratio
    requires PriceAt(p, p.baseYield).Ok? && PriceAt(p, p.baseYield + ShockShift(rateShockBps)).Ok?
  {
    var initial := PriceAt(p, p.baseYield).value;
    LossPct(initial, PriceAt(p, p.baseYield + ShockShift(rateShockBps)).value - initial)
  }

  /** The loss-percentage column of a table describing the shock holds, row by
      row, the loss percentage of that row's position. */
  lemma LossPctColumn(ps: seq<Position>, rateShockBps: int, t: ShockTable, i: int)
    requires Describes(t, ps, rateShockBps) && 0 <= i < |ps|
    ensures t.lossPct[i] == ShockLossPct(ps[i], rateShockBps)
  {
  }

  /** The annuity factor of a par position at its shocked yield. */
  function ParAnnuity(p: Position, rateShockBps: int): real
    requires 1.0 + (p.coupon + ShockShift(rateShockBps)) != 0.0 && p.maturity >= 0
  {
    Annuity(1.0 + (p.coupon + ShockShift(rateShockBps)), p.maturity)
  }

  /** The closed-form loss percentage of a position bought at par: -100 * s * a,
      with s the yield increment and a the annuity at the shocked yield. */
  function ParLoss(p: Position, rateShockBps: int): real
    requires 1.0 + (p.coupon + ShockShift(rateShockBps)) != 0.0 && p.maturity >= 0
  {
    Scaled(ShockShift(rateShockBps), ParAnnuity(p, rateShockBps))
  }

  /** The loss percentage -100 * s * a. */
  function Scaled(s: real, a: real): real {
    -100.0 * (s * a)
  }

  /** A par position under a positive shock loses ParLoss percent. */
  lemma ParShockLossPct(p: Position, rateShockBps: int)
    requires Sound(p) && p.baseYield == p.coupon && rateShockBps > 0
    ensures PriceAt(p, p.baseYield) == Ok(p.face)
    ensures PriceAt(p, p.baseYield + ShockShift(rateShockBps)).Ok?
    ensures ShockLossPct(p, rateShockBps) == Finite(ParLoss(p, rateShockBps))
  {
    ParPrice(p.face, p.coupon, p.maturity, p.baseYield);
    PriceSpreadForm(p.face, p.coupon, p.maturity, p.coupon + ShockShift(rateShockBps));
    assert PriceAt(p, p.baseYield + ShockShift(rateShockBps)).value
        == ClosedFormPrice(p.face, p.coupon, p.maturity, 1.0 + (p.coupon + ShockShift(rateShockBps)));
    SpreadLoss(p.face, p.coupon, ShockShift(rateShockBps), Annuity(1.0 + (p.coupon + ShockShift(rateShockBps)), p.maturity),
               PriceAt(p, p.baseYield + ShockShift(rateShockBps)).value);
  }

  /** The loss percentage of a par price shocked into face + face*(c - (c+s))*a. */
  lemma SpreadLoss(face: real, c: real, s: real, a: real, shocked: real)
    requires face > 0.0 && shocked == SpreadPrice(face, c, c + s, a)
    ensures LossPct(face, shocked - face) == Finite(Scaled(s, a))
  {
    assert shocked - face == face * (-(s * a));
    assert face * (-(s * a)) / face == -(s * a);
  }

  /** Duration ordering: of two positions at par with the same coupon, the longer
      one loses the larger percentage under the same positive shock. */
  lemma DurationOrdering(p: Position, q: Position, rateShockBps: int)
    requires Sound(p) && Sound(q) && rateShockBps > 0
    requires p.baseYield == p.coupon && q.baseYield == q.coupon && p.coupon == q.coupon
    requires p.maturity < q.maturity
    ensures PriceAt(p, p.baseYield).Ok? && PriceAt(p, p.baseYield + ShockShift(rateShockBps)).Ok?
    ensures PriceAt(q, q.baseYield).Ok? && PriceAt(q, q.baseYield + ShockShift(rateShockBps)).Ok?
    ensures ShockLossPct(q, rateShockBps).Finite? && ShockLossPct(p, rateShockBps).Finite?
    ensures ShockLossPct(q, rateShockBps).value < ShockLossPct(p, rateShockBps).value < 0.0
  {
    ParShockLossPct(p, rateShockBps);
    ParShockLossPct(q, rateShockBps);
    ParLossOrder(p, q, rateShockBps);
  }

  /** Of two par positions with the same coupon, the longer one has the more
      negative closed-form loss, and both are negative. */
  lemma ParLossOrder(p: Position, q: Position, rateShockBps: int)
    requires Sound(p) && Sound(q) && rateShockBps > 0 && p.coupon == q.coupon && p.maturity < q.maturity
    ensures ParLoss(q, rateShockBps) < ParLoss(p, rateShockBps) < 0.0
  {
    ParAnnuityOrder(p, q, rateShockBps);
    ScaledOrder(ShockShift(rateShockBps), ParAnnuity(p, rateShockBps), ParAnnuity(q, rateShockBps));
  }

  /** The longer par position has the larger annuity factor. */
  lemma ParAnnuityOrder(p: Position, q: Position, rateShockBps: int)
    requires Sound(p) && Sound(q) && rateShockBps > 0 && p.coupon == q.coupon && p.maturity < q.maturity
    ensures 0.0 < ParAnnuity(p, rateShockBps) < ParAnnuity(q, rateShockBps)
  {
    AnnuityIncreasing(1.0 + (p.coupon + ShockShift(rateShockBps)), p.maturity, q.maturity);
  }

  /** Scaling two ordered positive annuities by -100*s reverses their order. */
  lemma ScaledOrder(s: real, ap: real, aq: real)
    requires s > 0.0 && 0.0 < ap < aq
    ensures Scaled(s, aq) < Scaled(s, ap) < 0.0
  {
  }
}

=== FILE: pricing.dfy ===
/** Pricing of a fixed-coupon bond as the sum of its discounted cash flows. */
module Pricing {
  import opened Results

  /** `base` to the natural power `n`, as `**` with an integer exponent. */
  function Pow(base: real, n: nat): (r: real)
    ensures base != 0.0 ==> r != 0.0
    ensures base > 0.0 ==> r > 0.0
  {
    if n == 0 then 1.0 else base * Pow(base, n - 1)
  }

  /** Present value of one unit paid at each period 1..n, discounted by `growth`
      per period: the sum of 1 / growth^t. The closed form the price is stated in. */
  function Annuity(growth: real, n: nat): (r: real)
    requires growth != 0.0
    ensures growth > 0.0 ==> r >= 0.0
    ensures growth > 0.0 && n >= 1 ==> r > 0.0
  {
    if n == 0 then 0.0 else Annuity(growth, n - 1) + 1.0 / Pow(growth, n)
  }

  /** The schedule of a bond: a coupon `face * coupon` in each of `maturity`
      periods, with `face` added to the last one. */
  function CashFlows(face: real, coupon: real, maturity: nat): (flows: seq<real>)
    requires maturity >= 1
    ensures |flows| == maturity
    ensures forall t :: 0 <= t < maturity - 1 ==> flows[t] == face * coupon
    ensures flows[maturity - 1] == face * coupon + face
  {
    var level := Level(face * coupon, maturity);
    level[maturity - 1 := level[maturity - 1] + face]
  }

  /** `n` copies of `c`, the list `[c] * n`. */
  function Level(c: real, n: nat): (flows: seq<real>)
    ensures |flows| == n && forall t :: 0 <= t < n ==> flows[t] == c
  {
    seq(n, _ => c)
  }

  /** Sum of flows[t] / growth^(t+1), added from the first flow to the last. */
  function DiscountedSum(flows: seq<real>, growth: real): real
    requires growth != 0.0
  {
    if flows == [] then 0.0
    else DiscountedSum(flows[..|flows| - 1], growth) + flows[|flows| - 1] / Pow(growth, |flows|)
  }

  /** The reference price: the coupon `face * coupon` discounted over periods
      1..maturity plus the face discounted over `maturity` periods. */
  function ClosedFormPrice(face: real, coupon: real, maturity: nat, growth: real): real
    requires growth != 0.0
  {
    face * coupon * Annuity(growth, maturity) + face / Pow(growth, maturity)
  }

  /** The price of a bond at `yieldRate`. It fails where the script fails: an
      empty schedule (maturity < 1) and a zero discount factor (yield == -1). */
  function BondPrice(face: real, coupon: real, maturity: int, yieldRate: real): (r: Result<real>)
    ensures r.Ok? <==> maturity >= 1 && 1.0 + yieldRate != 0.0
    ensures maturity < 1 ==> r == Err(NoCashFlows)
    ensures maturity >= 1 && 1.0 + yieldRate == 0.0 ==> r == Err(ZeroDiscountFactor)
    ensures r.Ok? ==> r.value == ClosedFormPrice(face, coupon, maturity, 1.0 + yieldRate)
  {
    if maturity < 1 then Err(NoCashFlows)
    else if 1.0 + yieldRate == 0.0 then Err(ZeroDiscountFactor)
    else
      PriceClosedForm(face, coupon, maturity, 1.0 + yieldRate);
      Ok(DiscountedSum(CashFlows(face, coupon, maturity), 1.0 + yieldRate))
  }

  /** A level schedule of `n` equal flows `c` is worth `c` times the annuity. */
  lemma {:induction false} DiscountedLevel(c: real, growth: real, n: nat)
    requires growth != 0.0
    ensures DiscountedSum(Level(c, n), growth) == c * Annuity(growth, n)
    decreases n, 2
  {
    if n > 0 {
      DiscountedLevelStep(c, growth, n);
    } else {
      assert Level(c, 0) == [];
    }
  }

  /** The induction step of DiscountedLevel: peeling the last flow off a level
      schedule adds c / growth^n on both sides. */
  lemma DiscountedLevelStep(c: real, growth: real, n: nat)
    requires growth != 0.0 && n >= 1
    ensures DiscountedSum(Level(c, n), growth) == c * Annuity(growth, n)
    decreases n, 1
  {
    DiscountedLevel(c, growth, n - 1);
    assert Level(c, n)[..n - 1] == Level(c, n - 1);
    ScaledAnnuityStep(c, growth, n);
  }

  /** One step of the annuity, scaled by `c`. */
  lemma ScaledAnnuityStep(c: real, growth: real, n: nat)
    requires growth != 0.0 && n >= 1
    ensures c * Annuity(growth, n) == c * Annuity(growth, n - 1) + c / Pow(growth, n)
  {
    var p := Pow(growth, n);
    DivAsProduct(c, p);
    assert c * (Annuity(growth, n - 1) + 1.0 / p) == c * Annuity(growth, n - 1) + c * (1.0 / p);
  }

  /** Dividing by `p` is multiplying by its reciprocal. */
  lemma DivAsProduct(x: real, p: real)
    requires p != 0.0
    ensures x / p == x * (1.0 / p)
  {
  }

  /** Adding `x` to the last of `n` flows adds x / growth^n to their value. */
  lemma DiscountedBumpLast(flows: seq<real>, n: nat, x: real, growth: real)
    requires |flows| == n >= 1 && growth != 0.0
    ensures DiscountedSum(flows[n - 1 := flows[n - 1] + x], growth)
            == DiscountedSum(flows, growth) + x / Pow(growth, n)
  {
    var bumped := flows[n - 1 := flows[n - 1] + x];
    assert bumped[..n - 1] == flows[..n - 1];
    var p := Pow(growth, n);
    assert (flows[n - 1] + x) / p == flows[n - 1] / p + x / p;
  }

  /** The discounted schedule equals the coupon annuity plus the discounted face. */
  lemma PriceClosedForm(face: real, coupon: real, maturity: nat, growth: real)
    requires maturity >= 1 && growth != 0.0
    ensures DiscountedSum(CashFlows(face, coupon, maturity), growth)
            == ClosedFormPrice(face, coupon, maturity, growth)
  {
    var level := Level(face * coupon, maturity);
    DiscountedLevel(face * coupon, growth, maturity);
    DiscountedBumpLast(level, maturity, face, growth);
    CashFlowsBumpLevel(face, coupon, maturity);
  }

  /** The schedule is the level coupon list with the face added to its last flow. */
  lemma CashFlowsBumpLevel(face: real, coupon: real, maturity: nat)
    requires maturity >= 1
    ensures CashFlows(face, coupon, maturity)
            == Level(face * coupon, maturity)[maturity - 1 := Level(face * coupon, maturity)[maturity - 1] + face]
  {
  }

  /** Telescoping: y times the annuity at 1 + y is 1 - 1/(1+y)^n. */
  lemma {:induction false} AnnuityIdentity(y: real, n: nat)
    requires 1.0 + y != 0.0
    ensures y * Annuity(1.0 + y, n) == 1.0 - 1.0 / Pow(1.0 + y, n)
  {
    if n > 0 {
      AnnuityIdentity(y, n - 1);
      TelescopeStep(y, n);
    }
  }

  /** One step of the telescoping sum: y / (1+y)^n is 1/(1+y)^(n-1) - 1/(1+y)^n. */
  lemma TelescopeStep(y: real, n: nat)
    requires 1.0 + y != 0.0 && n >= 1
    requires y * Annuity(1.0 + y, n - 1) == 1.0 - 1.0 / Pow(1.0 + y, n - 1)
    ensures y * Annuity(1.0 + y, n) == 1.0 - 1.0 / Pow(1.0 + y, n)
  {
    var b := 1.0 + y;
    var p := Pow(b, n - 1);
    var inv := 1.0 / (b * p);
    assert Pow(b, n) == b * p;
    assert Annuity(b, n) == Annuity(b, n - 1) + inv;
    ReciprocalStep(b, p);
    assert y * Annuity(b, n) == y * Annuity(b, n - 1) + y * inv;
    assert b * inv == inv + y * inv;
  }

  /** 1/p is b times 1/(b*p). */
  lemma ReciprocalStep(b: real, p: real)
    requires b != 0.0 && p != 0.0
    ensures 1.0 / p == b * (1.0 / (b * p))
  {
    assert b * (1.0 / (b * p)) * p == 1.0;
  }

  /** The price face + face * (coupon - yieldRate) * annuity: par plus the
      coupon spread over the yield, paid as an annuity. */
  function SpreadPrice(face: real, coupon: real, yieldRate: real, annuity: real): real {
    face + face * (coupon - yieldRate) * annuity
  }

  /** The reference price is the face plus the face times the coupon-yield
      spread times the annuity. */
  lemma PriceSpreadForm(face: real, coupon: real, maturity: nat, yieldRate: real)
    requires 1.0 + yieldRate != 0.0
    ensures ClosedFormPrice(face, coupon, maturity, 1.0 + yieldRate)
            == SpreadPrice(face, coupon, yieldRate, Annuity(1.0 + yieldRate, maturity))
  {
    var b := 1.0 + yieldRate;
    var a := Annuity(b, maturity);
    var p := Pow(b, maturity);
    AnnuityIdentity(yieldRate, maturity);
    DivAsProduct(face, p);
    assert face * (1.0 / p) == face * (1.0 - yieldRate * a);
    assert face * coupon * a + face * (1.0 - yieldRate * a) == face + face * (coupon - yieldRate) * a;
  }

  /** A bond priced at its own coupon rate is worth exactly its face. */
  lemma ParPrice(face: real, coupon: real, maturity: int, yieldRate: real)
    requires maturity >= 1 && 1.0 + yieldRate != 0.0
    requires yieldRate == coupon
    ensures BondPrice(face, coupon, maturity, yieldRate) == Ok(face)
  {
    PriceSpreadForm(face, coupon, maturity, yieldRate);
    assert face * (coupon - yieldRate) == 0.0;
    assert face * (coupon - yieldRate) * Annuity(1.0 + yieldRate, maturity) == 0.0;
    assert ClosedFormPrice(face, coupon, maturity, 1.0 + yieldRate) == face;
  }

  /** A positive face with a non-negative coupon has a positive price at any yield above -1. */
  lemma PricePositive(face: real, coupon: real, maturity: int, yieldRate: real)
    requires face > 0.0 && coupon >= 0.0 && maturity >= 1 && 1.0 + yieldRate > 0.0
    ensures BondPrice(face, coupon, maturity, yieldRate).Ok?
    ensures BondPrice(face, coupon, maturity, yieldRate).value > 0.0
  {
  }

  /** Raising a positive base raises its powers, strictly from the first power on. */
  lemma {:induction false} PowMonotone(b1: real, b2: real, n: nat)
    requires 0.0 < b1 < b2
    ensures Pow(b1, n) <= Pow(b2, n)
    ensures n >= 1 ==> Pow(b1, n) < Pow(b2, n)
  {
    if n > 0 {
      PowMonotone(b1, b2, n - 1);
      ProductOrder(b1, b2, Pow(b1, n - 1), Pow(b2, n - 1));
    }
  }

  /** Products of positive factors grow strictly when one factor grows strictly. */
  lemma ProductOrder(b1: real, b2: real, p1: real, p2: real)
    requires 0.0 < b1 < b2 && 0.0 < p1 <= p2
    ensures b1 * p1 < b2 * p2
  {
    ScaleOrder(b1, p1, p2);
    assert b2 * p2 - b1 * p2 == (b2 - b1) * p2;
  }

  /** Reciprocals of positive numbers reverse strict order. */
  lemma ReciprocalAntitone(x: real, y: real)
    requires 0.0 < x < y
    ensures 1.0 / y < 1.0 / x
  {
    assert 1.0 / x - 1.0 / y == (y - x) / (x * y);
  }

  /** A larger discount base gives a smaller annuity, strictly once n >= 1. */
  lemma {:induction false} AnnuityAntitone(b1: real, b2: real, n: nat)
    requires 0.0 < b1 < b2
    ensures Annuity(b2, n) <= Annuity(b1, n)
    ensures n >= 1 ==> Annuity(b2, n) < Annuity(b1, n)
  {
    if n > 0 {
      AnnuityAntitone(b1, b2, n - 1);
      PowMonotone(b1, b2, n);
      ReciprocalAntitone(Pow(b1, n), Pow(b2, n));
    }
  }

  /** A longer annuity is worth strictly more at a positive base. */
  lemma {:induction false} AnnuityIncreasing(b: real, m: nat, n: nat)
    requires b > 0.0 && m < n
    ensures Annuity(b, m) < Annuity(b, n)
  {
    if m < n - 1 {
      AnnuityIncreasing(b, m, n - 1);
    }
  }

  /** The price falls strictly as the yield rises, for a positive face and a
      non-negative coupon (the inverse price/yield relation). */
  lemma PriceDecreasing(face: real, coupon: real, maturity: int, y1: real, y2: real)
    requires face > 0.0 && coupon >= 0.0 && maturity >= 1
    requires 1.0 + y1 > 0.0 && y1 < y2
    ensures BondPrice(face, coupon, maturity, y1).Ok? && BondPrice(face, coupon, maturity, y2).Ok?
    ensures BondPrice(face, coupon, maturity, y2).value < BondPrice(face, coupon, maturity, y1).value
  {
    var b1, b2 := 1.0 + y1, 1.0 + y2;
    AnnuityAntitone(b1, b2, maturity);
    PowMonotone(b1, b2, maturity);
    PriceTermsOrder(face * coupon, Annuity(b1, maturity), Annuity(b2, maturity),
                    face, Pow(b1, maturity), Pow(b2, maturity));
  }

  /** The two terms of the closed form both shrink: the coupon annuity weakly,
      the discounted face strictly. */
  lemma PriceTermsOrder(c: real, a1: real, a2: real, face: real, p1: real, p2: real)
    requires c >= 0.0 && a2 <= a1 && face > 0.0 && 0.0 < p1 < p2
    ensures c * a2 + face / p2 < c * a1 + face / p1
  {
    ScaleOrder(c, a2, a1);
    DivisorOrder(face, p1, p2);
  }

  /** Scaling by a non-negative number keeps order. */
  lemma ScaleOrder(c: real, x: real, y: real)
    requires c >= 0.0 && x <= y
    ensures c * x <= c * y
  {
    assert c * y - c * x == c * (y - x);
  }

  /** A positive amount over a larger positive divisor is strictly smaller. */
  lemma DivisorOrder(x: real, p1: real, p2: real)
    requires x > 0.0 && 0.0 < p1 < p2
    ensures x / p2 < x / p1
  {
    ReciprocalAntitone(p1, p2);
    DivAsProduct(x, p1);
    DivAsProduct(x, p2);
    assert x * (1.0 / p1) - x * (1.0 / p2) == x * (1.0 / p1 - 1.0 / p2);
  }
}

=== FILE: results.dfy ===
/** Outcomes of the stress-test engine: a value, or the reason a run stops. */
module Results {

  /** Why a run stops. Each constructor is a point where the script raises an
      exception or produces a non-finite number. */
  datatype EngineError =
    | NoCashFlows         // maturity < 1: the cash-flow list is empty and its last element is read
    | ZeroDiscountFactor  // 1 + yield == 0: a cash flow is divided by a zero discount factor
    | NonFiniteHtmLoss    // the HTM tier runs with a loss fraction that is 1 or not finite

  /** A value or an engine error; usable with `:-`. */
  datatype Result<+T> = Ok(value: T) | Err(error: EngineError) {
    predicate IsFailure() { Err? }
    function PropagateFailure<U>(): Result<U> requires Err? { Err(error) }
    function Extract(): T requires Ok? { value }
  }

  /** A ratio as the numeric library yields it: a finite number, or the
      infinity/NaN that a division by zero gives instead of an exception. */
  datatype Ratio = Finite(value: real) | NonFinite
}

=== FILE: scenario.dfy ===
/** One scenario end to end: the rate shock on the catalog, the aggregate loss
    fraction it yields, and the liquidity waterfall that sells at it. */
module Scenario {
  import opened Results
  import opened Portfolio
  import opened Waterfall

  /** Everything a scenario produces: the shock columns, the HTM loss fraction
      and the waterfall figures. */
  datatype ScenarioResult = ScenarioResult(table: ShockTable, htmLossPct: Ratio, waterfall: WaterfallResult)

  /** Runs the valuation, then the waterfall at the valuation's loss fraction.
      A valuation error stops the run before the waterfall. */
  method RunScenario(catalog: seq<Position>, rateShockBps: int, withdrawalPct: int, sheet: BalanceSheet)
    returns (r: Result<ScenarioResult>)
    ensures ApplyShock(catalog, rateShockBps).Err? ==> r == Err(ApplyShock(catalog, rateShockBps).error)
    ensures ApplyShock(catalog, rateShockBps).Ok? ==>
              var fraction := AggregateLossFraction(ApplyShock(catalog, rateShockBps).value);
              (r.Err? <==> NeedsHtm(sheet, withdrawalPct) && (fraction.NonFinite? || fraction.value == 1.0))
    ensures r.Ok? ==> ApplyShock(catalog, rateShockBps).Ok?
                      && r.value.table == ApplyShock(catalog, rateShockBps).value
                      && r.value.htmLossPct == AggregateLossFraction(r.value.table)
    ensures r.Ok? ==> Drawn(sheet, withdrawalPct, r.value.htmLossPct, r.value.waterfall)
    ensures r.Ok? ==> r.value.waterfall.equityDelta
                      == -(r.value.waterfall.afsLossRealized + r.value.waterfall.htmLossRealized)
    // a sound, non-empty catalog under a non-negative shock always completes,
    // sells HTM at a fraction in [0, 1), and never raises equity
    ensures AllSound(catalog) && |catalog| > 0 && rateShockBps >= 0 ==>
              && r.Ok? && r.value.htmLossPct.Finite?
              && 0.0 <= r.value.htmLossPct.value < 1.0
              && (rateShockBps > 0 ==> r.value.htmLossPct.value > 0.0)
              && (rateShockBps == 0 ==> r.value.htmLossPct.value == 0.0)
              && (sheet.afsAssets >= 0.0 ==> r.value.waterfall.finalEquity <= sheet.initialEquity)
  {
    var table :- ApplyShock(catalog, rateShockBps);
    var fraction := AggregateLossFraction(table);
    if AllSound(catalog) && |catalog| > 0 && rateShockBps >= 0 {
      LossFractionBounds(catalog, rateShockBps);
    }
    var drawn :- RunWaterfall(sheet, withdrawalPct, fraction);
    r := Ok(ScenarioResult(table, fraction, drawn));
  }

  /** The reference stress case: +300 bps and a run on 25% of deposits. Cash
      covers 15,000, the whole AFS pool nets 22,500 at a 2,500 loss, and the
      last 7,500 comes from HTM sold at the portfolio's loss fraction. */
  method ScenarioA() returns (r: Result<ScenarioResult>)
    ensures r.Ok?
    ensures r.value.table == ApplyShock(ReferenceCatalog, 300).value
    ensures r.value.htmLossPct == AggregateLossFraction(r.value.table)
    ensures r.value.waterfall.withdrawalAmount == 45000.0
    ensures r.value.waterfall.cashUsed == 15000.0 && r.value.waterfall.afterCash == 30000.0
    ensures r.value.waterfall.afsDrawn == 25000.0 && r.value.waterfall.afsLossRealized == 2500.0
    ensures r.value.waterfall.afterAfs == 7500.0
    ensures r.value.htmLossPct.Finite? && 0.0 < r.value.htmLossPct.value < 1.0
    ensures r.value.waterfall.htmFaceSold == 7500.0 / (1.0 - r.value.htmLossPct.value)
    ensures r.value.waterfall.htmLossRealized == r.value.waterfall.htmFaceSold * r.value.htmLossPct.value
    ensures r.value.waterfall.finalEquity == 12500.0 - r.value.waterfall.htmLossRealized
  {
    ReferenceCatalogAtPar();
    r := RunScenario(ReferenceCatalog, 300, 25, ReferenceSheet);
    ReferenceRun(r.value.htmLossPct.value, r.value.waterfall);
  }

  /** No shock and no run: nothing is lost and equity is unchanged. */
  method ScenarioB() returns (r: Result<ScenarioResult>)
    ensures r.Ok? && r.value.htmLossPct == Finite(0.0)
    ensures r.value.table == ApplyShock(ReferenceCatalog, 0).value
    ensures forall i :: 0 <= i < |ReferenceCatalog| ==> r.value.table.loss[i] == 0.0
    ensures r.value.waterfall.afsLossRealized == 0.0 && r.value.waterfall.htmLossRealized == 0.0
    ensures r.value.waterfall.finalEquity == ReferenceSheet.initialEquity
  {
    ReferenceCatalogAtPar();
    r := RunScenario(ReferenceCatalog, 0, 0, ReferenceSheet);
    ShockedRows(ReferenceCatalog, 0);
    CashCovered(ReferenceSheet, 0, r.value.htmLossPct, r.value.waterfall);
  }

  /** A run that the 15,000 of cash covers (at most 8% of the 180,000 of
      deposits) realizes no loss whatever the rate shock. */
  method ScenarioC(rateShockBps: int, withdrawalPct: int) returns (r: Result<ScenarioResult>)
    requires rateShockBps >= 0 && withdrawalPct <= 8
    ensures r.Ok?
    ensures r.value.waterfall.afsLossRealized == 0.0 && r.value.waterfall.htmLossRealized == 0.0
    ensures r.value.waterfall.finalEquity == ReferenceSheet.initialEquity
  {
    ReferenceCatalogAtPar();
    r := RunScenario(ReferenceCatalog, rateShockBps, withdrawalPct, ReferenceSheet);
    CashCovered(ReferenceSheet, withdrawalPct, r.value.htmLossPct, r.value.waterfall);
  }
}

=== FILE: waterfall.dfy ===
/** The liquidity waterfall: a cash demand met from cash at par, then from
    available-for-sale (AFS) securities at a 10% haircut, then from
    held-to-maturity (HTM) securities at the portfolio's loss fraction. */
module Waterfall {
  import opened Results

  /** The fixed balance-sheet figures the run is drawn against. */
  datatype BalanceSheet = BalanceSheet(totalDeposits: real, initialEquity: real, cashReserves: real, afsAssets: real)

  /** The balance sheet of the reference scenario (in millions). */
  const ReferenceSheet := BalanceSheet(180000.0, 15000.0, 15000.0, 25000.0)

  /** What the waterfall drew from each tier and what it cost. `afterCash` and
      `afterAfs` are the demand still open after the cash and the AFS tier. */
  datatype WaterfallResult = WaterfallResult(
    withdrawalAmount: real,
    cashUsed: real,
    afterCash: real,
    afsDrawn: real,
    afsLossRealized: real,
    afterAfs: real,
    htmFaceSold: real,
    htmLossRealized: real,
    finalEquity: real,
    equityDelta: real)

  /** The demand: a percentage of the total deposits. */
  function WithdrawalAmount(totalDeposits: real, withdrawalPct: int): (w: real)
    ensures w * 100.0 == totalDeposits * withdrawalPct as real
    ensures totalDeposits >= 0.0 && 0 <= withdrawalPct <= 100 ==> 0.0 <= w <= totalDeposits
  {
    totalDeposits * (withdrawalPct as real / 100.0)
  }

  function Min(a: real, b: real): real {
    if b < a then b else a
  }

  /** The cash tier: cash drawn at par up to the demand; no loss. */
  ghost predicate CashTier(sheet: BalanceSheet, w: WaterfallResult) {
    && w.cashUsed <= sheet.cashReserves && w.cashUsed <= w.withdrawalAmount
    && (w.cashUsed == sheet.cashReserves || w.cashUsed == w.withdrawalAmount)
    && w.afterCash == w.withdrawalAmount - w.cashUsed
  }

  /** The AFS tier: skipped without open demand; otherwise the book sold is the
      demand grossed up by the haircut, capped at the whole AFS pool, and the
      loss is 10% of the book sold. */
  ghost predicate AfsTier(sheet: BalanceSheet, w: WaterfallResult) {
    && (w.afterCash <= 0.0 ==> w.afsDrawn == 0.0 && w.afterAfs == w.afterCash)
    && (w.afterCash > 0.0 && w.afterCash / 0.90 <= sheet.afsAssets ==>
          w.afsDrawn == w.afterCash / 0.90 && w.afterAfs == 0.0)
    && (w.afterCash > 0.0 && w.afterCash / 0.90 > sheet.afsAssets ==>
          w.afsDrawn == sheet.afsAssets && w.afterAfs == w.afterCash - sheet.afsAssets * 0.90)
    && w.afsLossRealized == w.afsDrawn * 0.10
  }

  /** The HTM tier: skipped without open demand; otherwise the face sold nets
      the open demand at the loss fraction, and the loss is that fraction of it. */
  ghost predicate HtmTier(htmLossPct: Ratio, w: WaterfallResult) {
    && (w.afterAfs <= 0.0 ==> w.htmFaceSold == 0.0 && w.htmLossRealized == 0.0)
    && (w.afterAfs > 0.0 ==>
          && htmLossPct.Finite? && htmLossPct.value != 1.0
          && w.htmFaceSold == w.afterAfs / (1.0 - htmLossPct.value)
          && w.htmLossRealized == w.htmFaceSold * htmLossPct.value)
  }

  /** The whole pass: the demand, the three tiers in order, and the equity they leave. */
  ghost predicate Drawn(sheet: BalanceSheet, withdrawalPct: int, htmLossPct: Ratio, w: WaterfallResult) {
    && w.withdrawalAmount == WithdrawalAmount(sheet.totalDeposits, withdrawalPct)
    && CashTier(sheet, w)
    && AfsTier(sheet, w)
    && HtmTier(htmLossPct, w)
    && w.finalEquity == sheet.initialEquity - w.afsLossRealized - w.htmLossRealized
    && w.equityDelta == w.finalEquity - sheet.initialEquity
  }

  /** Demand left for the HTM tier: the demand exceeds the cash plus the AFS
      pool net of its haircut. */
  predicate NeedsHtm(sheet: BalanceSheet, withdrawalPct: int) {
    var demand := WithdrawalAmount(sheet.totalDeposits, withdrawalPct);
    demand > sheet.cashReserves && demand - sheet.cashReserves > sheet.afsAssets * 0.90
  }

  /** One pass of the waterfall. It fails only when the HTM tier is needed and
      its loss fraction makes the realized HTM loss non-finite (a fraction of 1
      or a non-finite one). */
  method RunWaterfall(sheet: BalanceSheet, withdrawalPct: int, htmLossPct: Ratio)
    returns (r: Result<WaterfallResult>)
    ensures r.Err? <==> NeedsHtm(sheet, withdrawalPct) && (htmLossPct.NonFinite? || htmLossPct.value == 1.0)
    ensures r.Err? ==> r.error == NonFiniteHtmLoss
    ensures r.Ok? ==> Drawn(sheet, withdrawalPct, htmLossPct, r.value)
    // the demand is met: cash, AFS net of the haircut, and HTM net of the loss add up to it
    ensures r.Ok? ==> r.value.afterCash >= 0.0 && r.value.afterAfs >= 0.0
    ensures r.Ok? ==> r.value.cashUsed + r.value.afsDrawn * 0.90 + r.value.afterAfs == r.value.withdrawalAmount
    ensures r.Ok? && r.value.afterAfs > 0.0 ==>
              r.value.htmFaceSold * (1.0 - htmLossPct.value) == r.value.afterAfs
    // the HTM tier runs exactly when the demand outruns cash and the net AFS pool
    ensures r.Ok? ==> (r.value.afterAfs > 0.0 <==> NeedsHtm(sheet, withdrawalPct))
    // AFS loss never exceeds the haircut on the whole pool
    ensures r.Ok? && r.value.afterCash > 0.0 ==> r.value.afsLossRealized <= sheet.afsAssets * 0.10
    // equity conservation
    ensures r.Ok? ==> r.value.equityDelta == -(r.value.afsLossRealized + r.value.htmLossRealized)
    // a run that cash covers costs nothing
    ensures WithdrawalAmount(sheet.totalDeposits, withdrawalPct) <= sheet.cashReserves ==>
              r.Ok? && r.value.afsLossRealized == 0.0 && r.value.htmLossRealized == 0.0
              && r.value.finalEquity == sheet.initialEquity
    // with a non-negative AFS pool and a loss fraction in [0, 1) equity only falls
    ensures sheet.afsAssets >= 0.0 && htmLossPct.Finite? && 0.0 <= htmLossPct.value < 1.0 ==>
              r.Ok? && r.value.afsLossRealized >= 0.0 && r.value.htmLossRealized >= 0.0
              && r.value.finalEquity <= sheet.initialEquity
  {
    var withdrawalAmount := WithdrawalAmount(sheet.totalDeposits, withdrawalPct);
    var remaining := withdrawalAmount;
    var equity := sheet.initialEquity;

    var cashUsed := Min(sheet.cashReserves, remaining);
    remaining := remaining - cashUsed;
    var afterCash := remaining;

    var afsDrawn, afsLoss := 0.0, 0.0;
    if remaining > 0.0 {
      var afsNeeded := remaining / 0.90;
      if afsNeeded <= sheet.afsAssets {
        afsDrawn := afsNeeded;
        afsLoss := afsNeeded * 0.10;
        equity := equity - afsLoss;
        remaining := 0.0;
      } else {
        afsDrawn := sheet.afsAssets;
        afsLoss := sheet.afsAssets * 0.10;
        equity := equity - afsLoss;
        remaining := remaining - sheet.afsAssets * 0.90;
      }
    }
    var afterAfs := remaining;

    var htmFace, htmLoss := 0.0, 0.0;
    if remaining > 0.0 {
      if htmLossPct.NonFinite? || htmLossPct.value == 1.0 {
        return Err(NonFiniteHtmLoss);
      }
      HtmSaleSigns(remaining, htmLossPct.value);
      htmFace := remaining / (1.0 - htmLossPct.value);
      htmLoss := htmFace * htmLossPct.value;
      equity := equity - htmLoss;
    }

    r := Ok(WaterfallResult(withdrawalAmount, cashUsed, afterCash, afsDrawn, afsLoss, afterAfs,
                            htmFace, htmLoss, equity, equity - sheet.initialEquity));
  }

  /** Selling HTM face to net a positive demand at a loss fraction in [0, 1)
      sells a positive face and realizes a non-negative loss. */
  lemma HtmSaleSigns(demand: real, lossFraction: real)
    requires lossFraction != 1.0
    ensures demand > 0.0 && 0.0 <= lossFraction < 1.0 ==>
              demand / (1.0 - lossFraction) > 0.0
              && demand / (1.0 - lossFraction) * lossFraction >= 0.0
  {
  }

  /** The reference run: 25% of the reference deposits is 45,000. Cash covers
      15,000, the whole AFS pool of 25,000 nets 22,500 at a 2,500 loss, and the
      last 7,500 is raised from HTM sold at the loss fraction. */
  lemma ReferenceRun(lossFraction: real, w: WaterfallResult)
    requires 0.0 <= lossFraction < 1.0
    requires Drawn(ReferenceSheet, 25, Finite(lossFraction), w)
    ensures w.withdrawalAmount == 45000.0
    ensures w.cashUsed == 15000.0 && w.afterCash == 30000.0
    ensures w.afsDrawn == 25000.0 && w.afsLossRealized == 2500.0
    ensures w.afterAfs == 7500.0
    ensures w.htmFaceSold == 7500.0 / (1.0 - lossFraction)
    ensures w.htmLossRealized == w.htmFaceSold * lossFraction
    ensures w.finalEquity == 12500.0 - w.htmLossRealized
  {
  }

  /** A pass whose demand the cash covers realizes no loss and leaves equity unchanged. */
  lemma CashCovered(sheet: BalanceSheet, withdrawalPct: int, htmLossPct: Ratio, w: WaterfallResult)
    requires Drawn(sheet, withdrawalPct, htmLossPct, w)
    requires WithdrawalAmount(sheet.totalDeposits, withdrawalPct) <= sheet.cashReserves
    ensures w.afterCash <= 0.0 && w.afterAfs <= 0.0
    ensures w.afsLossRealized == 0.0 && w.htmLossRealized == 0.0
    ensures w.finalEquity == sheet.initialEquity && w.equityDelta == 0.0
  {
  }

  /** The tier description fixes every figure of the pass: it is a complete
      specification, not a loose one. */
  lemma DrawnUnique(sheet: BalanceSheet, withdrawalPct: int, htmLossPct: Ratio,
                    w1: WaterfallResult, w2: WaterfallResult)
    requires Drawn(sheet, withdrawalPct, htmLossPct, w1)
    requires Drawn(sheet, withdrawalPct, htmLossPct, w2)
    ensures w1 == w2
  {
  }
}
